=== FILE: README.md ===
# ConditionSSD health analyzer and alert loop, in Dafny

ConditionSSD is a single-run monitoring script. It asks `smartctl` for the host's
storage devices, reads a full JSON report for each one, turns the report into a
health percentage and a reason, and e-mails the administrator for every device
whose health is below 60%.

This project models the two pieces of that script that decide something:

- `analyze_health` is a priority-ordered rule table over a report that may be
  absent. Module `HealthAnalyzer` in `health_analyzer.dfy` models it. The rules
  are, first match wins: no report or an empty report; an explicit SMART failure;
  an NVMe `percentage_used`; the first ATA attribute with id 177, 231 or 233; and
  the optimistic default.
- The device loop of `main` reads, analyses and alerts on each device in scan
  order. Module `DiskMonitor` in `disk_monitor.dfy` models it as a pure function
  from the scanned devices, each paired with the outcome of its read, to a trace
  of the run: which devices were read, which alerts were sent, and whether the
  run stopped early. `Run` is the loop over devices already paired with their
  verdicts. `Monitor` feeds it the scan and the read outcomes through `Analyze`.

Module `SmartReport` in `smart_report.dfy` holds the slice of the report that the
analyzer reads. It covers `smart_status.passed`, `device.type`,
`nvme_smart_health_information_log.percentage_used` and
`ata_smart_attributes.table`, where each table row is an `(id, value)` pair.
Every field is optional. A count of the other top-level keys decides Python's
`not smart_json`: an object is falsy exactly when it has no keys.

The model follows the code closely in these places:

- **No clamping.** NVMe health is `100 - percentage_used`, which is negative
  above 100. An ATA attribute's `value` is returned unchanged.
- **Missing value.** A matched ATA attribute without a `value` gives a verdict
  with no percentage, so the percentage is an `Option<int>`.
- **Only `False` fails.** `passed is False` holds only for the JSON boolean
  `false`. A missing, null, `true` or non-boolean `passed` never triggers the
  failure rule.
- **A missing percentage ends the run.** In `main`, `None < 60` raises a
  TypeError. The handler wrapped around the whole of `main`
  (ConditionSSD/ConditionSSD.py:195-200) catches it, so the device with the
  missing value is read but gets no alert, and no later device is read.
  `DiskMonitor.Run` models this, and `AbortHidesLaterDevices` states it.
- **Empty scan.** It causes no reads and no alerts. The early return at
  ConditionSSD/ConditionSSD.py:176-178 produces the same trace as a loop over an
  empty list.

The code never clamps the percentage to 0..100, and neither does the model.

## Model

| member | source | states |
|---|---|---|
| SmartReport.IsEmpty | ConditionSSD/ConditionSSD.py:108 | Python's `not smart_json`: a report counts as empty exactly when its key count (`len(smart_json)`, the present read keys plus the unread ones) is zero. |
| HealthAnalyzer.Analyze | ConditionSSD/ConditionSSD.py:104-130 | For each of the five reasons, states the exact condition (if and only if) under which that rule fires, given that no earlier rule applies. A SATA verdict is the first recognised table entry's value and id. The id is one of 177, 231 or 233. Only the SATA rule can give a missing percentage. |
| HealthAnalyzer.FirstRecognised | ConditionSSD/ConditionSSD.py:123-127 | Returns the index of the first table entry whose id is 177, 231 or 233. Every entry before it is unrecognised. It returns nothing exactly when no entry is recognised. |
| HealthAnalyzer.ReadErrorRule | ConditionSSD/ConditionSSD.py:108-109 | An absent report, or an empty object, gives exactly (0, "Read Error"). |
| HealthAnalyzer.FailedOverridesMetrics | ConditionSSD/ConditionSSD.py:111-113 | An explicit `passed == false` gives (0, "SMART FAILED (CRITICAL)"). Replacing the device, NVMe or ATA fields does not change that verdict. |
| HealthAnalyzer.OnlyExplicitFalseFails | ConditionSSD/ConditionSSD.py:111-113 | A `passed` that is missing, or is not the boolean false, never gives the SMART-failed verdict. |
| HealthAnalyzer.NvmeRule | ConditionSSD/ConditionSSD.py:115-120 | A report that has not failed, has device type "nvme" and has `percentage_used` u gives (100 - u, "NVMe Health") with no clamping. The ATA table does not affect it. |
| HealthAnalyzer.NvmeFallsThrough | ConditionSSD/ConditionSSD.py:116-123 | Take a report that has a `device` or NVMe log key but no usable NVMe metric (not "nvme", or no `percentage_used`). It never gives "NVMe Health". Its verdict equals that of the same report with those two keys replaced by one unread key, so the report stays non-empty and the verdict is decided by the ATA table. |
| HealthAnalyzer.AtaFirstMatchRule | ConditionSSD/ConditionSSD.py:123-127 | Suppose the report has not failed and has no usable NVMe metric. Then the first recognised table entry gives (its value, "SATA Attribute <id>"), with the value passed through unchanged. |
| HealthAnalyzer.AtaLaterEntriesIgnored | ConditionSSD/ConditionSSD.py:124-127 | Once the table holds a recognised entry, appending any entries after it, recognised or not, leaves the verdict unchanged. |
| HealthAnalyzer.AtaEarlierUnrecognisedSkipped | ConditionSSD/ConditionSSD.py:123-130 | For a non-empty report that has not failed and has no usable NVMe metric, putting unrecognised entries before the table leaves the verdict unchanged, whether or not the table holds a recognised entry. |
| HealthAnalyzer.MissingTableReadsAsEmpty | ConditionSSD/ConditionSSD.py:123 | A missing `ata_smart_attributes` or `table` key gives the same verdict as an explicit empty table. This is the `[]` default of `.get('table', [])`, which `SmartReport.AtaTable` models. |
| HealthAnalyzer.DefaultRule | ConditionSSD/ConditionSSD.py:129-130 | A non-empty report that has not failed, has no usable NVMe metric and has no recognised ATA id gives (100, "SMART Passed (No % data)"). |
| HealthAnalyzer.MissingPercentageOnlyFromAta | ConditionSSD/ConditionSSD.py:118-127 | A verdict has no percentage exactly when the SATA rule applies and the first recognised entry has no `value`. |
| HealthAnalyzer.ReasonText | ConditionSSD/ConditionSSD.py:108-130 | The label of each verdict. A label starts with "SATA Attribute " exactly when the ATA rule fired. The rest of such a label is decimal digits with no leading zero, and reading them back as a number gives the id, so it is the id's decimal text as the f-string at line 127 writes it. |
| HealthAnalyzer.DecimalRoundTrip | ConditionSSD/ConditionSSD.py:127 | The text of a non-negative id has no leading zero, and read back digit by digit it gives the id. These two facts make it the id's canonical decimal text, as the f-string formats it. |
| HealthAnalyzer.DecimalInjective | ConditionSSD/ConditionSSD.py:127 | Different attribute ids format to different decimal texts. |
| HealthAnalyzer.ReasonTextInjective | ConditionSSD/ConditionSSD.py:108-130 | Different reasons, and different ATA ids, give different reason labels. The label therefore identifies the rule that fired. |
| HealthAnalyzer.NvmeExample | ConditionSSD/ConditionSSD.py:116-120 | An NVMe report with `percentage_used` 5 gives (95, "NVMe Health"). |
| HealthAnalyzer.NvmeOverUseIsNegative | ConditionSSD/ConditionSSD.py:116-120 | An NVMe report with `percentage_used` 130 gives -30. The result is not clamped. |
| HealthAnalyzer.SataExample | ConditionSSD/ConditionSSD.py:123-127 | A table with id 5 (value 100) followed by id 177 (value 40) gives (40, "SATA Attribute 177"). |
| DiskMonitor.Monitor | ConditionSSD/ConditionSSD.py:175-193 | A run sends no more alerts than devices read, and reads no more devices than scanned. Every alert belongs to a scanned device whose `analyze_health` verdict is below 60, and carries that device's name, percentage and reason. |
| DiskMonitor.MonitorAlertsIffLow | ConditionSSD/ConditionSSD.py:175-193 | When every scanned device's `analyze_health` verdict has a percentage, the run does not stop early and reads every scanned device in order. An alert is sent if and only if it is the alert for a scanned device whose verdict is below 60, carrying its name, percentage and reason. |
| DiskMonitor.Run | ConditionSSD/ConditionSSD.py:181-193 | Sends no more alerts than devices read, and reads no more devices than given. The per-device statement, that each read device gets at most one alert, is `RunSpec` together with `DeviceAlerts`. |
| DiskMonitor.RunSpec | ConditionSSD/ConditionSSD.py:175-200 | An empty scan reads nothing and sends nothing. The run completes exactly when every device's verdict has a percentage, and then it reads every device in scan order and sends the alerts for the low-health devices. Otherwise it stops at the first device without a percentage: it has read exactly the devices up to that one, and alerted only on devices before it. |
| DiskMonitor.AlertsFor | ConditionSSD/ConditionSSD.py:190-193 | There are at most as many alerts as devices. Every alert carries the host name and a health strictly below 60 (`THRESHOLD_PERCENT`, line 16). |
| DiskMonitor.DeviceAlerts | ConditionSSD/ConditionSSD.py:190-193 | One completed device yields one alert exactly when its health is known and below 60, and none otherwise. The alert carries the host name, the device's name, its health and its reason. |
| DiskMonitor.AlertsForConcat | ConditionSSD/ConditionSSD.py:181-193 | The alerts for two concatenated device lists are the alerts for the first list followed by those for the second. Alerts therefore follow scan order. |
| DiskMonitor.AlertsForMembership | ConditionSSD/ConditionSSD.py:190-193 | An alert is sent if and only if it is the alert for some device whose health is below 60. |
| DiskMonitor.NoAlertsIffHealthy | ConditionSSD/ConditionSSD.py:190-193 | No alert is sent if and only if no device is below 60. |
| DiskMonitor.OneAlertPerLowDevice | ConditionSSD/ConditionSSD.py:181-193 | The number of alerts equals the number of low-health devices, so each gets exactly one. |
| DiskMonitor.AlertsComeFromLowDevices | ConditionSSD/ConditionSSD.py:190-193 | Every alert of a run, completed or stopped early, is the alert of one of its devices whose health is below 60. |
| DiskMonitor.CompletedRunAlertsIffLow | ConditionSSD/ConditionSSD.py:181-193 | In a run where every verdict has a percentage, every device is read. An alert is sent if and only if it belongs to a device with health below 60. |
| DiskMonitor.SingleDeviceRun | ConditionSSD/ConditionSSD.py:181-193 | A single device is read once. It gets exactly one alert, carrying its health, when that health is below 60, and none otherwise. |
| DiskMonitor.AbortHidesLaterDevices | ConditionSSD/ConditionSSD.py:181-200 | Once a device's verdict has no percentage, the run ends. No later device is read or alerted on, whatever its health. |

## Left out

- `run_smartctl_scan` and `get_disk_health_data` run subprocesses with timeouts. `run_smartctl_scan` rejects a non-zero exit code. `get_disk_health_data` does not check the exit code: it parses whatever smartctl printed, so a failing smartctl that still prints JSON is analysed. Only their outcomes are modelled: a list of devices, and for each device a report or `None`. A device with no `name` is paired with any outcome. In the source its read always gives `None`, because the subprocess call raises on a `None` argument.
- JSON decoding is not modelled. Neither are values of the wrong JSON type: a non-object report or sub-object, a float `percentage_used`, or a float or string id or value. In the source these raise, or format differently, as Python's dynamic typing dictates. The model takes every number to be an integer.
- A JSON null `table`, `smart_status`, `device`, `nvme_smart_health_information_log` or `ata_smart_attributes` is not modelled; the model only has these keys present or missing. In the source a null key raises when the analyzer reaches it (`.get` on `None`, or `for attr in None`), and the global handler then ends the run. `smart_status` is always reached (line 111). `device` is reached only when `passed` is not false (line 116). The NVMe log is reached only for device type "nvme" (line 117). `ata_smart_attributes` and `table` are reached only when neither rule 2 nor rule 3 fired (lines 123-124). A null key the analyzer never reaches acts like an unread key, which `otherKeys` counts.
- `send_email_alert` builds and delivers the message over SMTP, which is network I/O. An alert is modelled by its arguments, and a failed delivery does not stop the loop, as in the source.
- `check_setup` (the credential check and `sys.exit`), `get_machine_info` (the host name, taken as a parameter), logging and `print` are process and environment plumbing.
- Any exception other than the `None < 60` comparison that reaches the global handler is not modelled.

=== FILE: disk_monitor.dfy ===
/**
 The per-device loop of ConditionSSD's `main`: every device the scan found is
 read, analysed, and reported by e-mail when its health is below the threshold.

 The reads are the I/O of the loop, so they arrive here as data: each scanned
 device is paired with the outcome of reading it (a report, or `None` when the
 read timed out, failed or returned output that was not JSON). The result is
 the trace of what the loop does: which devices it read, which alerts it sent,
 in order, and whether it stopped early. `Run` is the loop over devices already
 paired with their verdicts; `Monitor` feeds it the scan and the reads.

 It stops early when a verdict has no percentage (a recognised ATA attribute
 without a value): `None < 60` raises a TypeError, which the handler around the
 whole of `main` catches and logs, so no later device is read.
 */
module DiskMonitor {
  import opened SmartReport
  import opened HealthAnalyzer

  /** `THRESHOLD_PERCENT`: a device below this health triggers an alert. */
  const ThresholdPercent: int := 60

  /** An entry of the scan's `devices` list; only `name` is read. */
  datatype Device = Device(name: Option<string>)

  /** A scanned device and the outcome of reading its full report. A device without a
      `name` may carry any outcome here, although in the program reading it always gives
      `None` (the subprocess call raises on the missing argument and the read returns
      `None`); every property below holds for all outcomes, that one included. */
  datatype Scanned = Scanned(device: Device, report: Option<Report>)

  /** The arguments of one `send_email_alert` call. */
  datatype Alert = Alert(hostname: string, device: Option<string>, health: int, reason: Reason)

  /** A device once read and analysed: its name and the verdict on its report. */
  datatype Inspected = Inspected(name: Option<string>, verdict: Verdict)

  /** What one run did: devices read, in order; alerts sent, in order; whether it stopped early. */
  datatype RunOutcome = RunOutcome(devicesRead: seq<Option<string>>, alerts: seq<Alert>, aborted: bool)

  /** The start of the loop body for one device: its name, and `analyze_health` of what reading it returned. */
  function Inspect(s: Scanned): Inspected {
    Inspected(s.device.name, Analyze(s.report))
  }

  /** The verdict each scanned device gets when the loop reaches it. `analyze_health` is pure,
      so computing them up front changes nothing; which devices the loop actually reaches is
      recorded by `Run`. */
  function InspectAll(scans: seq<Scanned>): (devices: seq<Inspected>)
    ensures |devices| == |scans|
    ensures forall i :: 0 <= i < |scans| ==> devices[i] == Inspect(scans[i])
  {
    seq(|scans|, i requires 0 <= i < |scans| => Inspect(scans[i]))
  }

  function Health(d: Inspected): Option<int> {
    d.verdict.percentage
  }

  /** The device's health is known and strictly below the threshold (line 191). */
  predicate LowHealth(d: Inspected) {
    Health(d).Some? && Health(d).value < ThresholdPercent
  }

  function AlertFor(hostname: string, d: Inspected): Alert
    requires Health(d).Some?
  {
    Alert(hostname, d.name, Health(d).value, d.verdict.reason)
  }

  /** The names of the devices, in scan order. */
  function Names(devices: seq<Inspected>): (names: seq<Option<string>>)
    ensures |names| == |devices|
    ensures forall i :: 0 <= i < |devices| ==> names[i] == devices[i].name
  {
    seq(|devices|, i requires 0 <= i < |devices| => devices[i].name)
  }

  /** The alerts the loop sends for devices it completes: one per low-health device, in scan order. */
  function AlertsFor(hostname: string, devices: seq<Inspected>): (alerts: seq<Alert>)
    ensures |alerts| <= |devices|
    ensures forall a :: a in alerts ==> a.health < ThresholdPercent && a.hostname == hostname
  {
    if |devices| == 0 then [] else DeviceAlerts(hostname, devices[0]) + AlertsFor(hostname, devices[1..])
  }

  /** The alert one completed device contributes: one if its health is low, none otherwise. */
  function DeviceAlerts(hostname: string, s: Inspected): (alerts: seq<Alert>)
    ensures |alerts| == 1 <==> Health(s).Some? && Health(s).value < ThresholdPercent
    ensures |alerts| <= 1
    ensures forall a :: a in alerts ==>
              && a.hostname == hostname && a.device == s.name && a.reason == s.verdict.reason
              && Health(s) == Some(a.health) && a.health < ThresholdPercent
  {
    if LowHealth(s) then [AlertFor(hostname, s)] else []
  }

  /** Device `k` is the first whose verdict has no percentage. */
  predicate AbortsAt(devices: seq<Inspected>, k: int) {
    && 0 <= k < |devices|
    && Health(devices[k]).None?
    && forall i :: 0 <= i < k ==> Health(devices[i]).Some?
  }

  /** The loop of `main` from the scan on: nothing is read when the scan found nothing;
      otherwise each device is read and analysed in scan order and alerted on when its
      health is low, until a verdict without a percentage ends the run. At most one alert
      is sent per device read. */
  function Run(hostname: string, devices: seq<Inspected>): (o: RunOutcome)
    ensures |o.alerts| <= |o.devicesRead| <= |devices|
  {
    if |devices| == 0 then RunOutcome([], [], false)
    else
      var s := devices[0];
      if Health(s).None? then RunOutcome([s.name], [], true)
      else
        var rest := Run(hostname, devices[1..]);
        var here := if Health(s).value < ThresholdPercent then [AlertFor(hostname, s)] else [];
        RunOutcome([s.name] + rest.devicesRead, here + rest.alerts, rest.aborted)
  }

  /** What a run does, stated without reference to its recursion: the run completes
      exactly when every verdict has a percentage, and then it reads every device and
      sends the alerts of the low ones; otherwise it stops at the first device without
      a percentage, having read exactly the devices up to it and alerted only on
      devices before it. */
  lemma {:induction false} RunSpec(hostname: string, devices: seq<Inspected>)
    ensures var o := Run(hostname, devices);
      && (devices == [] ==> o.devicesRead == [] && o.alerts == [])
      && (!o.aborted <==> forall i :: 0 <= i < |devices| ==> Health(devices[i]).Some?)
      && (!o.aborted ==> o.devicesRead == Names(devices) && o.alerts == AlertsFor(hostname, devices))
      && (o.aborted ==>
            exists k :: AbortsAt(devices, k)
                     && o.devicesRead == Names(devices[..k + 1])
                     && o.alerts == AlertsFor(hostname, devices[..k]))
  {
    if |devices| > 0 {
      var s := devices[0];
      if Health(s).None? {
        assert AbortsAt(devices, 0) && devices[..1] == [s] && devices[..0] == [];
      } else {
        RunSpec(hostname, devices[1..]);
        RunStep(hostname, devices, Run(hostname, devices[1..]), Run(hostname, devices));
      }
    }
  }

  lemma NamesCons(devices: seq<Inspected>)
    requires |devices| > 0
    ensures Names(devices) == [devices[0].name] + Names(devices[1..])
  {
  }

  /** The induction step of `Run`'s contract: a completed first device followed by the rest of the run. */
  lemma RunStep(hostname: string, devices: seq<Inspected>, rest: RunOutcome, o: RunOutcome)
    requires |devices| > 0 && Health(devices[0]).Some?
    requires !rest.aborted <==> forall i :: 0 <= i < |devices[1..]| ==> Health(devices[1..][i]).Some?
    requires !rest.aborted ==> rest.devicesRead == Names(devices[1..]) && rest.alerts == AlertsFor(hostname, devices[1..])
    requires rest.aborted ==>
               exists k :: AbortsAt(devices[1..], k)
                        && rest.devicesRead == Names(devices[1..][..k + 1])
                        && rest.alerts == AlertsFor(hostname, devices[1..][..k])
    requires o == RunOutcome([devices[0].name] + rest.devicesRead, DeviceAlerts(hostname, devices[0]) + rest.alerts, rest.aborted)
    ensures !o.aborted <==> forall i :: 0 <= i < |devices| ==> Health(devices[i]).Some?
    ensures !o.aborted ==> o.devicesRead == Names(devices) && o.alerts == AlertsFor(hostname, devices)
    ensures o.aborted ==>
              exists k :: AbortsAt(devices, k)
                       && o.devicesRead == Names(devices[..k + 1])
                       && o.alerts == AlertsFor(hostname, devices[..k])
  {
    if rest.aborted {
      var k :| AbortsAt(devices[1..], k)
               && rest.devicesRead == Names(devices[1..][..k + 1])
               && rest.alerts == AlertsFor(hostname, devices[1..][..k]);
      RunStepAborted(hostname, devices, k);
      var k' := k + 1;
      assert AbortsAt(devices, k') && o.devicesRead == Names(devices[..k' + 1]) && o.alerts == AlertsFor(hostname, devices[..k']);
    } else {
      RunStepCompleted(devices);
      NamesCons(devices);
    }
  }

  /** Induction step of `Run`, when the rest of the run completes. */
  lemma RunStepCompleted(devices: seq<Inspected>)
    requires |devices| > 0 && Health(devices[0]).Some?
    requires forall i :: 0 <= i < |devices| - 1 ==> Health(devices[1..][i]).Some?
    ensures forall i :: 0 <= i < |devices| ==> Health(devices[i]).Some?
  {
    forall i | 1 <= i < |devices|
      ensures Health(devices[i]).Some?
    {
      assert devices[i] == devices[1..][i - 1];
    }
  }

  /** Induction step of `Run`, when the rest of the run stops at its device `k`. */
  lemma RunStepAborted(hostname: string, devices: seq<Inspected>, k: int)
    requires |devices| > 0 && Health(devices[0]).Some?
    requires AbortsAt(devices[1..], k)
    ensures AbortsAt(devices, k + 1)
    ensures !(forall i :: 0 <= i < |devices| ==> Health(devices[i]).Some?)
    ensures Names(devices[..k + 2]) == [devices[0].name] + Names(devices[1..][..k + 1])
    ensures AlertsFor(hostname, devices[..k + 1]) == DeviceAlerts(hostname, devices[0]) + AlertsFor(hostname, devices[1..][..k])
  {
    forall i | 1 <= i < k + 1
      ensures Health(devices[i]).Some?
    {
      assert devices[i] == devices[1..][i - 1];
    }
    assert devices[k + 1] == devices[1..][k];
    var p, q := devices[..k + 2], devices[..k + 1];
    assert p[1..] == devices[1..][..k + 1];
    NamesCons(p);
    assert q[1..] == devices[1..][..k];
  }

  // ---------------------------------------------------------------------------
  // The alert filter.

  /** Alerts distribute over concatenation of devices: the order of alerts is the scan order. */
  lemma {:induction false} AlertsForConcat(hostname: string, a: seq<Inspected>, b: seq<Inspected>)
    ensures AlertsFor(hostname, a + b) == AlertsFor(hostname, a) + AlertsFor(hostname, b)
  {
    if |a| == 0 {
      assert a + b == b;
    } else {
      var ab := a + b;
      assert ab[0] == a[0];
      assert ab[1..] == a[1..] + b;
      AlertsForConcat(hostname, a[1..], b);
      assert AlertsFor(hostname, ab) == DeviceAlerts(hostname, a[0]) + AlertsFor(hostname, ab[1..]);
      assert AlertsFor(hostname, a) == DeviceAlerts(hostname, a[0]) + AlertsFor(hostname, a[1..]);
    }
  }

  /** An alert is sent for a completed device if and only if its health is below the threshold. */
  lemma {:induction false} AlertsForMembership(hostname: string, devices: seq<Inspected>, a: Alert)
    ensures a in AlertsFor(hostname, devices) <==>
              exists i :: 0 <= i < |devices| && LowHealth(devices[i]) && a == AlertFor(hostname, devices[i])
  {
    if |devices| > 0 {
      AlertsForMembership(hostname, devices[1..], a);
      if a in AlertsFor(hostname, devices[1..]) {
        var i :| 0 <= i < |devices[1..]| && LowHealth(devices[1..][i]) && a == AlertFor(hostname, devices[1..][i]);
        assert devices[i + 1] == devices[1..][i];
      }
      if i :| 0 <= i < |devices| && LowHealth(devices[i]) && a == AlertFor(hostname, devices[i]) {
        if i > 0 {
          assert devices[1..][i - 1] == devices[i];
        }
      }
    }
  }

  /** No alert at all if and only if no completed device is low. */
  lemma {:induction false} NoAlertsIffHealthy(hostname: string, devices: seq<Inspected>)
    ensures AlertsFor(hostname, devices) == [] <==> forall i :: 0 <= i < |devices| ==> !LowHealth(devices[i])
  {
    if |devices| > 0 {
      NoAlertsIffHealthy(hostname, devices[1..]);
      assert forall i :: 1 <= i < |devices| ==> devices[i] == devices[1..][i - 1];
    }
  }

  /** The devices among the first `n` whose health is low. */
  function LowIndices(devices: seq<Inspected>, n: nat): set<nat>
    requires n <= |devices|
  {
    set i: nat | i < n && LowHealth(devices[i])
  }

  /** Extending the prefix by one device adds that device's index iff it is low. */
  lemma LowIndicesStep(devices: seq<Inspected>, n: nat)
    requires 0 < n <= |devices|
    ensures n - 1 !in LowIndices(devices, n - 1)
    ensures LowIndices(devices, n) == LowIndices(devices, n - 1) + (if LowHealth(devices[n - 1]) then {n - 1} else {})
  {
  }

  /** Extending the prefix by one device appends that device's alert, if any. */
  lemma AlertsForStep(hostname: string, devices: seq<Inspected>, n: nat)
    requires 0 < n <= |devices|
    ensures AlertsFor(hostname, devices[..n]) == AlertsFor(hostname, devices[..n - 1]) + DeviceAlerts(hostname, devices[n - 1])
  {
    var last := [devices[n - 1]];
    assert devices[..n] == devices[..n - 1] + last;
    AlertsForConcat(hostname, devices[..n - 1], last);
    assert AlertsFor(hostname, last) == DeviceAlerts(hostname, devices[n - 1]) + AlertsFor(hostname, []);
  }

  /** One alert per low device: the number of alerts is the number of low-health devices. */
  lemma {:induction false} OneAlertPerLowDevice(hostname: string, devices: seq<Inspected>, n: nat)
    requires n <= |devices|
    ensures |AlertsFor(hostname, devices[..n])| == |LowIndices(devices, n)|
  {
    if n == 0 {
      assert LowIndices(devices, 0) == {};
    } else {
      OneAlertPerLowDevice(hostname, devices, n - 1);
      AlertsForStep(hostname, devices, n);
      LowIndicesStep(devices, n);
    }
  }

  // ---------------------------------------------------------------------------
  // Runs.

  /** A run over devices that all yield a percentage reads every device and alerts exactly
      on those below the threshold. */
  lemma CompletedRunAlertsIffLow(hostname: string, devices: seq<Inspected>, a: Alert)
    requires forall i :: 0 <= i < |devices| ==> Health(devices[i]).Some?
    ensures Run(hostname, devices).devicesRead == Names(devices)
    ensures a in Run(hostname, devices).alerts <==>
              exists i :: 0 <= i < |devices| && Health(devices[i]).value < ThresholdPercent && a == AlertFor(hostname, devices[i])
  {
    RunSpec(hostname, devices);
    AlertsForMembership(hostname, devices, a);
  }

  /** A single device at 30% gets exactly one alert carrying 30; at 80% it gets none. */
  lemma SingleDeviceRun(hostname: string, s: Inspected)
    requires Health(s).Some?
    ensures Health(s).value < ThresholdPercent ==> Run(hostname, [s]).alerts == [AlertFor(hostname, s)]
    ensures Health(s).value >= ThresholdPercent ==> Run(hostname, [s]).alerts == []
    ensures Run(hostname, [s]).devicesRead == [s.name]
  {
  }

  /** Devices after one whose verdict has no percentage are never read nor alerted on,
      whatever their health. */
  lemma {:induction false} AbortHidesLaterDevices(hostname: string, before: seq<Inspected>, stuck: Inspected, after: seq<Inspected>)
    requires forall i :: 0 <= i < |before| ==> Health(before[i]).Some?
    requires Health(stuck).None?
    ensures Run(hostname, before + [stuck] + after)
            == RunOutcome(Names(before) + [stuck.name], AlertsFor(hostname, before), true)
  {
    if |before| == 0 {
      assert before + [stuck] + after == [stuck] + after;
      AbortFirst(hostname, stuck, after);
    } else {
      AbortHidesLaterDevices(hostname, before[1..], stuck, after);
      AbortLater(hostname, before, stuck, after);
    }
  }

  /** Base case: the first device has no percentage. */
  lemma AbortFirst(hostname: string, stuck: Inspected, after: seq<Inspected>)
    requires Health(stuck).None?
    ensures Run(hostname, [stuck] + after) == RunOutcome(Names([]) + [stuck.name], AlertsFor(hostname, []), true)
  {
  }

  /** Step: a completed device in front of a run that stops. */
  lemma AbortLater(hostname: string, before: seq<Inspected>, stuck: Inspected, after: seq<Inspected>)
    requires |before| > 0 && Health(before[0]).Some?
    requires Run(hostname, before[1..] + [stuck] + after)
             == RunOutcome(Names(before[1..]) + [stuck.name], AlertsFor(hostname, before[1..]), true)
    ensures Run(hostname, before + [stuck] + after)
            == RunOutcome(Names(before) + [stuck.name], AlertsFor(hostname, before), true)
  {
    var devices := before + [stuck] + after;
    var first, others := before[0], before[1..];
    assert devices[0] == first;
    assert devices[1..] == others + [stuck] + after;
    var rest := Run(hostname, devices[1..]);
    assert Run(hostname, devices)
           == RunOutcome([first.name] + rest.devicesRead, DeviceAlerts(hostname, first) + rest.alerts, true);
    NamesCons(before);
    assert [first.name] + rest.devicesRead == Names(before) + [stuck.name];
  }

  // ---------------------------------------------------------------------------
  // The loop over what the scan and the reads returned.

  /** The run of `main` over the scanned devices and their read outcomes: every alert is
      for a scanned device whose report `analyze_health` puts below the threshold, and it
      carries that device's name, percentage and reason. */
  function Monitor(hostname: string, scans: seq<Scanned>): (o: RunOutcome)
    ensures |o.alerts| <= |o.devicesRead| <= |scans|
    ensures forall a :: a in o.alerts ==>
              exists i :: 0 <= i < |scans|
                       && Analyze(scans[i].report) == Verdict(Some(a.health), a.reason)
                       && a.health < ThresholdPercent
                       && a.device == scans[i].device.name
  {
    var devices := InspectAll(scans);
    var o := Run(hostname, devices);
    AlertsComeFromLowDevices(hostname, devices);
    o
  }

  /** Every alert of a run is the alert of one of its low-health devices. */
  lemma AlertsComeFromLowDevices(hostname: string, devices: seq<Inspected>)
    ensures forall a :: a in Run(hostname, devices).alerts ==>
              exists i :: 0 <= i < |devices| && LowHealth(devices[i]) && a == AlertFor(hostname, devices[i])
  {
  }

  /** The converse of `Monitor`'s contract, for a run that completes: when every scanned
      device's verdict has a percentage, every device is read in scan order, and an alert is
      sent if and only if it is the alert for a scanned device below the threshold. */
  lemma MonitorAlertsIffLow(hostname: string, scans: seq<Scanned>, a: Alert)
    requires forall i :: 0 <= i < |scans| ==> Analyze(scans[i].report).percentage.Some?
    ensures !Monitor(hostname, scans).aborted
    ensures |Monitor(hostname, scans).devicesRead| == |scans|
    ensures forall i :: 0 <= i < |scans| ==> Monitor(hostname, scans).devicesRead[i] == scans[i].device.name
    ensures a in Monitor(hostname, scans).alerts <==>
              exists i :: 0 <= i < |scans|
                       && Analyze(scans[i].report).percentage.value < ThresholdPercent
                       && a == Alert(hostname, scans[i].device.name,
                                     Analyze(scans[i].report).percentage.value, Analyze(scans[i].report).reason)
  {
    var devices := InspectAll(scans);
    assert forall i :: 0 <= i < |devices| ==> Health(devices[i]).Some?;
    RunSpec(hostname, devices);
    CompletedRunAlertsIffLow(hostname, devices, a);
  }
}

=== FILE: health_analyzer.dfy ===
/**
 The health analyzer of ConditionSSD: a priority-ordered rule table mapping a
 smartctl report, possibly absent, to a health percentage and a reason.

 Rules, first match wins:
   1. no report, or an empty one            -> (0, "Read Error")
   2. `smart_status.passed` is false        -> (0, "SMART FAILED (CRITICAL)")
   3. NVMe device with `percentage_used` u  -> (100 - u, "NVMe Health")
   4. first ATA attribute with id in {177, 231, 233}
                                            -> (its value, "SATA Attribute <id>")
   5. otherwise                             -> (100, "SMART Passed (No % data)")

 The percentage is never clamped: `100 - u` is negative when u > 100, and an
 ATA value is passed through as is, including a missing one (`None`).
 */
module HealthAnalyzer {
  import opened SmartReport

  /** The ATA attribute ids read as "life remaining": 177 (wear levelling count),
      231 (SSD life left), 233 (media wearout indicator). */
  const RecognisedIds: seq<int> := [177, 231, 233]

  /** Which rule produced a verdict. */
  datatype Reason =
    | ReadError
    | SmartFailed
    | NvmeHealth
    | SataAttribute(id: int)
    | NoPercentData

  /** A verdict: the percentage (absent when a matched ATA attribute has no value) and its reason. */
  datatype Verdict = Verdict(percentage: Option<int>, reason: Reason)

  predicate Recognised(a: AtaAttribute) {
    a.id.Some? && a.id.value in RecognisedIds
  }

  /** Entry `i` of `t` is the first recognised one. */
  predicate FirstMatchAt(t: seq<AtaAttribute>, i: int) {
    && 0 <= i < |t|
    && Recognised(t[i])
    && forall j :: 0 <= j < i ==> !Recognised(t[j])
  }

  /** The index of the first recognised attribute in table order, the `for attr in ata_attrs` loop. */
  function FirstRecognised(t: seq<AtaAttribute>): (r: Option<nat>)
    ensures r.Some? ==> FirstMatchAt(t, r.value)
    ensures r.None? <==> forall j :: 0 <= j < |t| ==> !Recognised(t[j])
  {
    if |t| == 0 then None
    else if Recognised(t[0]) then Some(0)
    else
      match FirstRecognised(t[1..])
      case None => None
      case Some(i) => Some(i + 1)
  }

  /** Rule 1 applies: Python's `not smart_json`. */
  predicate Unreadable(report: Option<Report>) {
    report.None? || IsEmpty(report.value)
  }

  /** Rule 2 applies to a readable report: `passed` is exactly the boolean false. */
  predicate ExplicitlyFailed(r: Report) {
    Passed(r) == Some(false)
  }

  /** Rule 3 applies to a readable, not failed report. */
  predicate NvmeMetric(r: Report) {
    DeviceType(r) == Some("nvme") && PercentageUsed(r).Some?
  }

  /** `analyze_health` */
  function Analyze(report: Option<Report>): (v: Verdict)
    ensures v.reason.ReadError? <==> Unreadable(report)
    ensures v.reason.SmartFailed? <==> !Unreadable(report) && ExplicitlyFailed(report.value)
    ensures v.reason.NvmeHealth? <==>
              !Unreadable(report) && !ExplicitlyFailed(report.value) && NvmeMetric(report.value)
    ensures v.reason.SataAttribute? <==>
              && !Unreadable(report) && !ExplicitlyFailed(report.value) && !NvmeMetric(report.value)
              && exists i :: 0 <= i < |AtaTable(report.value)| && Recognised(AtaTable(report.value)[i])
    ensures v.reason.SataAttribute? ==>
              exists i :: FirstMatchAt(AtaTable(report.value), i)
                       && v == Verdict(AtaTable(report.value)[i].value, SataAttribute(AtaTable(report.value)[i].id.value))
    ensures v.reason.SataAttribute? ==> v.reason.id in RecognisedIds
    ensures v.percentage.None? ==> v.reason.SataAttribute?
  {
    if Unreadable(report) then Verdict(Some(0), ReadError)
    else
      var r := report.value;
      if ExplicitlyFailed(r) then Verdict(Some(0), SmartFailed)
      else if NvmeMetric(r) then Verdict(Some(100 - PercentageUsed(r).value), NvmeHealth)
      else
        var t := AtaTable(r);
        match FirstRecognised(t)
        case Some(i) => Verdict(t[i].value, SataAttribute(t[i].id.value))
        case None => Verdict(Some(100), NoPercentData)
  }

  // ---------------------------------------------------------------------------
  // One lemma per rule, each stating the rule together with its precedence.

  /** Rule 1: an absent or empty report reads as 0% "Read Error", whatever else. */
  lemma ReadErrorRule(report: Option<Report>)
    requires Unreadable(report)
    ensures Analyze(report) == Verdict(Some(0), ReadError)
  {
  }

  /** Rule 2: an explicit SMART failure gives 0% whatever the NVMe and ATA fields say;
      replacing those fields does not change the verdict. */
  lemma FailedOverridesMetrics(r: Report, device: Option<DeviceInfo>, nvme: Option<NvmeLog>, ata: Option<AtaAttributes>)
    requires ExplicitlyFailed(r)
    ensures Analyze(Some(r)) == Verdict(Some(0), SmartFailed)
    ensures Analyze(Some(r.(device := device, nvmeLog := nvme, ataAttributes := ata))) == Analyze(Some(r))
  {
  }

  /** Only an explicit `false` triggers rule 2: a missing or true `passed` never fails a report. */
  lemma OnlyExplicitFalseFails(r: Report)
    requires Passed(r) != Some(false)
    ensures Analyze(Some(r)).reason != SmartFailed
  {
  }

  /** Rule 3: a not-failed NVMe report with `percentage_used` u gives 100 - u, unclamped,
      and the ATA table has no influence. */
  lemma NvmeRule(r: Report, ata: Option<AtaAttributes>)
    requires !ExplicitlyFailed(r) && DeviceType(r) == Some("nvme") && PercentageUsed(r).Some?
    ensures Analyze(Some(r)) == Verdict(Some(100 - PercentageUsed(r).value), NvmeHealth)
    ensures Analyze(Some(r.(ataAttributes := ata))) == Analyze(Some(r))
  {
  }

  /** An NVMe report without `percentage_used`, or a non-NVMe report, falls through to the
      ATA table: its verdict is the one the same report gets with no NVMe fields at all. */
  lemma NvmeFallsThrough(r: Report)
    requires !NvmeMetric(r)
    requires r.device.Some? || r.nvmeLog.Some?
    ensures Analyze(Some(r)).reason != NvmeHealth
    ensures Analyze(Some(r)) == Analyze(Some(r.(device := None, nvmeLog := None, otherKeys := r.otherKeys + 1)))
  {
  }

  /** Rule 4: the first recognised ATA attribute decides, value passed through verbatim. */
  lemma AtaFirstMatchRule(r: Report, i: int)
    requires !ExplicitlyFailed(r) && !NvmeMetric(r)
    requires FirstMatchAt(AtaTable(r), i)
    ensures Analyze(Some(r)) == Verdict(AtaTable(r)[i].value, SataAttribute(AtaTable(r)[i].id.value))
  {
  }

  /** Rule 4, later entries: once a recognised attribute is present, anything appended after
      it, recognised or not, leaves the verdict unchanged. */
  lemma AtaLaterEntriesIgnored(r: Report, later: seq<AtaAttribute>)
    requires !ExplicitlyFailed(r) && !NvmeMetric(r)
    requires exists i :: 0 <= i < |AtaTable(r)| && Recognised(AtaTable(r)[i])
    ensures Analyze(Some(WithAtaTable(r, AtaTable(r) + later))) == Analyze(Some(r))
  {
    var t := AtaTable(r);
    var k := FirstRecognised(t).value;
    var r' := WithAtaTable(r, t + later);
    assert FirstMatchAt(t + later, k) by {
      assert forall j :: 0 <= j <= k ==> (t + later)[j] == t[j];
    }
    AtaFirstMatchRule(r', k);
  }

  /** Rule 4, earlier entries: unrecognised attributes placed before the table are skipped,
      whether the table then holds a recognised attribute (rule 4) or not (rule 5). */
  lemma AtaEarlierUnrecognisedSkipped(r: Report, earlier: seq<AtaAttribute>)
    requires !IsEmpty(r) && !ExplicitlyFailed(r) && !NvmeMetric(r)
    requires forall j :: 0 <= j < |earlier| ==> !Recognised(earlier[j])
    ensures Analyze(Some(WithAtaTable(r, earlier + AtaTable(r)))) == Analyze(Some(r))
  {
    var t := AtaTable(r);
    var r' := WithAtaTable(r, earlier + t);
    assert forall j :: |earlier| <= j < |earlier| + |t| ==> (earlier + t)[j] == t[j - |earlier|];
    match FirstRecognised(t)
    case Some(k) =>
      assert FirstMatchAt(earlier + t, |earlier| + k) by {
        forall j | 0 <= j < |earlier| + k
          ensures !Recognised((earlier + t)[j])
        {
          if j < |earlier| {
            assert (earlier + t)[j] == earlier[j];
          } else {
            assert (earlier + t)[j] == t[j - |earlier|];
          }
        }
      }
      AtaFirstMatchRule(r', |earlier| + k);
    case None =>
      forall j | 0 <= j < |earlier + t|
        ensures !Recognised((earlier + t)[j])
      {
        if j < |earlier| {
          assert (earlier + t)[j] == earlier[j];
        } else {
          assert (earlier + t)[j] == t[j - |earlier|];
        }
      }
      DefaultRule(r');
      DefaultRule(r);
  }

  /** The `[]` default of `.get('table', [])`: a report whose attribute table is missing is
      analysed like the same report with an explicit empty table. */
  lemma MissingTableReadsAsEmpty(r: Report)
    requires r.ataAttributes.None? || r.ataAttributes.value.table.None?
    requires !IsEmpty(r)
    ensures Analyze(Some(r)) == Analyze(Some(WithAtaTable(r, [])))
  {
  }

  /** Rule 5: with no failure, no usable NVMe metric and no recognised ATA id, the
      verdict is the optimistic 100% "SMART Passed (No % data)". */
  lemma DefaultRule(r: Report)
    requires !IsEmpty(r) && !ExplicitlyFailed(r) && !NvmeMetric(r)
    requires forall j :: 0 <= j < |AtaTable(r)| ==> !Recognised(AtaTable(r)[j])
    ensures Analyze(Some(r)) == Verdict(Some(100), NoPercentData)
  {
  }

  /** The percentage is absent only when a recognised ATA attribute lacks its value. */
  lemma MissingPercentageOnlyFromAta(report: Option<Report>)
    ensures Analyze(report).percentage.None? <==>
              && !Unreadable(report) && !ExplicitlyFailed(report.value) && !NvmeMetric(report.value)
              && exists i :: FirstMatchAt(AtaTable(report.value), i) && AtaTable(report.value)[i].value.None?
  {
  }

  // ---------------------------------------------------------------------------
  // Reason labels as the source writes them.

  function DigitChar(d: nat): (c: char)
    requires d < 10
    ensures '0' <= c <= '9'
  {
    ('0' as int + d) as char
  }

  /** Decimal text of a non-negative integer, as an f-string formats it. */
  function Decimal(n: nat): (s: string)
    ensures 1 <= |s|
    ensures n >= 10 ==> 2 <= |s|
    ensures forall k :: 0 <= k < |s| ==> '0' <= s[k] <= '9'
    ensures |s| == 1 || s[0] != '0'
  {
    if n < 10 then [DigitChar(n)] else Decimal(n / 10) + [DigitChar(n % 10)]
  }

  /** Reads a string of decimal digits back as the number it denotes, most significant first. */
  function DigitsValue(s: string): int {
    if |s| == 0 then 0 else DigitsValue(s[..|s| - 1]) * 10 + (s[|s| - 1] as int - '0' as int)
  }

  /** `Decimal(n)` is the decimal text of `n`: reading it back gives `n`, and it has no
      leading zero, which makes it the one canonical digit string of `n`. */
  lemma {:induction false} DecimalRoundTrip(n: nat)
    ensures DigitsValue(Decimal(n)) == n
    ensures |Decimal(n)| == 1 || Decimal(n)[0] != '0'
  {
    var s := Decimal(n);
    if n < 10 {
      assert s[..0] == [];
    } else {
      DecimalRoundTrip(n / 10);
      assert s[..|s| - 1] == Decimal(n / 10);
      assert s[|s| - 1] == DigitChar(n % 10);
    }
  }

  lemma {:induction false} DecimalInjective(a: nat, b: nat)
    requires Decimal(a) == Decimal(b)
    ensures a == b
  {
    if a >= 10 && b >= 10 {
      var sa, sb := Decimal(a), Decimal(b);
      assert sa[..|sa| - 1] == Decimal(a / 10);
      assert sb[..|sb| - 1] == Decimal(b / 10);
      DecimalInjective(a / 10, b / 10);
      assert sa[|sa| - 1] == DigitChar(a % 10);
      assert sb[|sb| - 1] == DigitChar(b % 10);
    } else if a < 10 && b < 10 {
      assert Decimal(a)[0] == DigitChar(a);
    }
  }

  /** The label `analyze_health` returns with each reason. */
  function ReasonText(reason: Reason): (text: string)
    requires reason.SataAttribute? ==> reason.id >= 0
    ensures reason.SataAttribute? <==> |text| > 15 && text[..15] == "SATA Attribute "
    ensures reason.SataAttribute? ==> forall k :: 15 <= k < |text| ==> '0' <= text[k] <= '9'
    ensures reason.SataAttribute? ==> DigitsValue(text[15..]) == reason.id
    ensures reason.SataAttribute? ==> |text| == 16 || text[15] != '0'
  {
    match reason
    case ReadError => "Read Error"
    case SmartFailed =>
      var t := "SMART FAILED (CRITICAL)";
      assert t[..15][1] != "SATA Attribute "[1];
      t
    case NvmeHealth => "NVMe Health"
    case SataAttribute(id) =>
      var t := "SATA Attribute " + Decimal(id);
      DecimalRoundTrip(id);
      assert t[15..] == Decimal(id);
      t
    case NoPercentData =>
      var t := "SMART Passed (No % data)";
      assert t[..15][1] != "SATA Attribute "[1];
      t
  }

  /** Distinct rules, and distinct ATA ids, give distinct labels: the label names the rule that fired. */
  lemma ReasonTextInjective(a: Reason, b: Reason)
    requires a.SataAttribute? ==> a.id >= 0
    requires b.SataAttribute? ==> b.id >= 0
    requires ReasonText(a) == ReasonText(b)
    ensures a == b
  {
    var ta, tb := ReasonText(a), ReasonText(b);
    if a.SataAttribute? && b.SataAttribute? {
      var p := "SATA Attribute ";
      assert ta[|p|..] == Decimal(a.id);
      assert tb[|p|..] == Decimal(b.id);
      DecimalInjective(a.id, b.id);
    }
  }

  // ---------------------------------------------------------------------------
  // Worked examples.

  /** An NVMe drive that has used 5% of its endurance reads as 95%. */
  lemma NvmeExample()
    ensures Analyze(Some(Report(None, Some(DeviceInfo(Some("nvme"))), Some(NvmeLog(Some(5))), None, 0)))
            == Verdict(Some(95), NvmeHealth)
  {
  }

  /** An NVMe drive past its rated endurance reads as a negative percentage: no clamping. */
  lemma NvmeOverUseIsNegative()
    ensures Analyze(Some(Report(None, Some(DeviceInfo(Some("nvme"))), Some(NvmeLog(Some(130))), None, 0)))
            == Verdict(Some(-30), NvmeHealth)
  {
  }

  /** Attribute 177 with value 40 decides over an earlier unrecognised attribute 5. */
  lemma SataExample()
    ensures Analyze(Some(Report(None, None, None,
              Some(AtaAttributes(Some([AtaAttribute(Some(5), Some(100)), AtaAttribute(Some(177), Some(40))]))), 0)))
            == Verdict(Some(40), SataAttribute(177))
  {
  }
}

=== FILE: smart_report.dfy ===
/**
 The slice of a smartctl `--all --json` report that the health analyzer reads.

 The report is a JSON object. Only four of its top-level keys are ever looked
 at; every other key is summarised by a count, because the only thing the
 analyzer asks of it is whether the object is empty (Python's `not smart_json`).
 Each nested object is modelled by the one key read from it. A top-level key,
 or `table`, that is missing is `None`; a null one is not modelled. For the
 leaf values `passed`, `type`, `percentage_used`, `id` and `value`, `None`
 stands for missing or null alike, since `.get` returns `None` for both.
 */
module SmartReport {

  /** A value that may be absent, as a `dict.get` without a default returns `None`. */
  datatype Option<+T> = None | Some(value: T)

  /** `smart_status`: only `passed` is read. `Some(b)` iff the JSON value is the boolean `b`;
      a missing, null or non-boolean value is `None`. */
  datatype SmartStatus = SmartStatus(passed: Option<bool>)

  /** `device`: only `type` is read (smartctl writes e.g. "nvme", "sat", "ata"). */
  datatype DeviceInfo = DeviceInfo(kind: Option<string>)

  /** `nvme_smart_health_information_log`: only `percentage_used` is read. */
  datatype NvmeLog = NvmeLog(percentageUsed: Option<int>)

  /** One row of `ata_smart_attributes.table`: its `id` and its normalised `value`. */
  datatype AtaAttribute = AtaAttribute(id: Option<int>, value: Option<int>)

  /** `ata_smart_attributes`: only `table` is read; `None` when the key is missing. */
  datatype AtaAttributes = AtaAttributes(table: Option<seq<AtaAttribute>>)

  /** A decoded report. `otherKeys` counts the top-level keys the analyzer never reads. */
  datatype Report = Report(
    smartStatus: Option<SmartStatus>,
    device: Option<DeviceInfo>,
    nvmeLog: Option<NvmeLog>,
    ataAttributes: Option<AtaAttributes>,
    otherKeys: nat)

  /** `len(smart_json)`: one per modelled key that is present, plus the unread ones. */
  function KeyCount(r: Report): nat {
    (if r.smartStatus.Some? then 1 else 0) + (if r.device.Some? then 1 else 0)
    + (if r.nvmeLog.Some? then 1 else 0) + (if r.ataAttributes.Some? then 1 else 0)
    + r.otherKeys
  }

  /** Python truthiness of the decoded object: an object is falsy iff it has no keys. */
  predicate IsEmpty(r: Report)
    ensures IsEmpty(r) <==> KeyCount(r) == 0
  {
    && r.smartStatus.None?
    && r.device.None?
    && r.nvmeLog.None?
    && r.ataAttributes.None?
    && r.otherKeys == 0
  }

  /** `smart_json.get('smart_status', {}).get('passed')` */
  function Passed(r: Report): Option<bool> {
    match r.smartStatus
    case None => None
    case Some(s) => s.passed
  }

  /** `smart_json.get('device', {}).get('type')` */
  function DeviceType(r: Report): Option<string> {
    match r.device
    case None => None
    case Some(d) => d.kind
  }

  /** `smart_json.get('nvme_smart_health_information_log', {}).get('percentage_used')` */
  function PercentageUsed(r: Report): Option<int> {
    match r.nvmeLog
    case None => None
    case Some(l) => l.percentageUsed
  }

  /** `smart_json.get('ata_smart_attributes', {}).get('table', [])` */
  function AtaTable(r: Report): seq<AtaAttribute> {
    match r.ataAttributes
    case None => []
    case Some(a) =>
      match a.table
      case None => []
      case Some(t) => t
  }

  /** The same report with its attribute table replaced by `t`. */
  function WithAtaTable(r: Report, t: seq<AtaAttribute>): (r': Report)
    ensures AtaTable(r') == t
    ensures Passed(r') == Passed(r) && DeviceType(r') == DeviceType(r)
    ensures PercentageUsed(r') == PercentageUsed(r)
    ensures !IsEmpty(r')
  {
    r.(ataAttributes := Some(AtaAttributes(Some(t))))
  }
}
